=== FILE: README.md ===
# Time-bounded discussion posts: a Dafny model of the post lifecycle

This project models the post lifecycle and interaction engine of a small discussion-post
service (`routes/posts.js`). Posts are created with a fixed lifetime. While they are live,
other users like, dislike and comment on them. Once expired they refuse every interaction.
Express, Mongoose and the clock are gone. What remains is a sequential state machine over
an in-memory store of posts:

- `domain.dfy` (`Domain`) holds the values. These are the topic enumeration, statuses, the
  caller (`Principal`), the interaction record (`Interaction`, one shape for likes,
  dislikes and comments, told apart by `kind`), the post record, and a `Response` type.
  `Response` stands in for the HTTP statuses: 200/201, 404, 403 expired, 403 owner and 400.
- `expiry.dfy` (`Expiry`) holds the expiry helpers. The wall clock is the parameter `now`,
  in integer milliseconds.
- `grouping.dfy` (`Grouping`) holds the `groupByUser` loop and its specification.
- `toggle.dfy` (`ToggleEngine`) holds the reaction toggle: clear the actor from the
  opposite list, then toggle them in the target list.
- `lifecycle.dfy` (`Lifecycle`) holds the per-post rules: create validation, the expiry and
  owner gates, reactions, comments and the bulk sweep. It also holds the invariant every
  stored post keeps (`PostInvariant`) and how a stored post may evolve (`Successor`).
- `queries.dfy` (`Queries`) holds the read side: store queries, the most-interesting scan,
  the expired-list ordering and the browse view.
- `store.dfy` (`Store`) holds the class `PostStore`. It keeps the posts in a
  `seq<Post>` field, in scan order. Its methods are the route handlers.

Design decisions:

- A post's id is its position in the store. The store hands out ids in insertion order,
  and there is no deletion path.
- "Newest first" (`sort({createdAt: -1})`) is modelled as reverse store order.
- A missing title, body or topic string is the empty string; both are falsy in the source.
- A username may be missing (`Option`). `groupByUser` counts a missing or empty name under
  the key `"unknown"`.
- The like and dislike handlers are one operation with a `Reaction` parameter.
- The reaction filters are keyed on `userId` in both lists. The comment at line 90 says this
  is intended (see Findings).
- The comment text lives in the record's `value` field. The handler writes it there and the
  projection reads it from there. The comment sub-schema in `models/Post.js:14` calls it
  `text`; the model follows the handler.
- A reaction answers with the last element of the target list, as the code does
  (lines 113 and 159). After a toggle-off this is another user's record or nothing, never
  the removed record. `Lifecycle.ReactToggles` states both: the answer is the last record of
  the new target list, and after a toggle-off it is never the actor's.

Where the code behaves in ways a reader might not expect, the model follows the code:

- The expiry gate looks only at `expiresAt`, never at the stored status. An already Expired
  post is flipped and saved again, and the command fails the same way.
- Only the browse route sweeps. Most-interesting and the expired list read stored statuses
  as they are.
- An explicit empty `topics` array passes validation.
- Comments have no owner check.

## Model

| member | source | states |
|---|---|---|
| `Domain.ParseTopic` | routes/posts.js:205-207 | a name is accepted exactly when it is one of Politics, Health, Sport, Tech, and then maps back to that name |
| `Expiry.IsExpired` | routes/posts.js:7 | a post is expired exactly when its remaining time is clamped to zero and the clock is not at the expiry instant itself |
| `Expiry.TimeLeftMs` | routes/posts.js:8 | remaining milliseconds are zero exactly when `now >= expiresAt`, and otherwise reach `expiresAt` from `now` |
| `Expiry.TimeLeftSeconds` | routes/posts.js:9 | whole seconds left are the floor of the remaining milliseconds over 1000 |
| `Expiry.ExpiredMeansNoTimeLeft` | routes/posts.js:7-9 | an expired post has 0 seconds left; a post with seconds left is not expired |
| `Expiry.TimeLeftShrinks` | routes/posts.js:8-9 | time left never grows as the clock advances |
| `Grouping.GroupByUser` | routes/posts.js:11-18 | the loop builds exactly the left-to-right grouping fold |
| `Grouping.UserKey` | routes/posts.js:14 | the key is `unknown` exactly when the name is missing, empty or literally `unknown`; otherwise it is the name itself |
| `Grouping.GroupCountsAreMultiplicities` | routes/posts.js:11-18 | the keys are exactly the user keys that occur (name, or "unknown" when missing), and each count is that key's multiplicity |
| `Grouping.GroupCountsSumToLength` | routes/posts.js:11-18 | the counts sum to the list length |
| `Grouping.GroupExample` | routes/posts.js:14-15 | `[a, a, b, no name]` groups as `{a: 2, b: 1, unknown: 1}` |
| `ToggleEngine.HasUser` | routes/posts.js:96-98 | the user has a record exactly when the keyed filter removes something |
| `ToggleEngine.RemoveUser` | routes/posts.js:100-102 | the filter keeps exactly the records of other users, keeps users unique, never lengthens |
| `ToggleEngine.RemoveUserConcat` | routes/posts.js:146-148 | filtering distributes over concatenation, so kept records keep their relative order |
| `ToggleEngine.Toggle` | routes/posts.js:90-110 | the new target list holds only old records or the new one; the new opposite list only old records |
| `ToggleEngine.ToggleFlips` | routes/posts.js:96-110 | the actor's presence in the target list flips; they leave the opposite list; other users' records are unchanged and in order; a toggle-on appends exactly the new record |
| `ToggleEngine.ToggleKeepsExclusive` | routes/posts.js:138-156 | a toggle keeps both lists free of duplicate users and disjoint in users |
| `ToggleEngine.DoubleToggleRestores` | routes/posts.js:142-156 | two toggles by a user in neither list restore both lists |
| `ToggleEngine.LastOf` | routes/posts.js:113 | the answer is present exactly when the list is non-empty, and is then its last element |
| `ToggleEngine.RecordString` | routes/posts.js:92 | a pushed record prints as `[object Object]`, whatever its user id (no contract: it is the constant its partners `FilterAsWrittenKeepsAll` and `AsWrittenKeepsOpposite` rely on) |
| `ToggleEngine.FilterAsWritten` | routes/posts.js:91-93 | the string-comparing filter keeps exactly the records whose printed form differs from the user id |
| `ToggleEngine.FilterAsWrittenKeepsAll` | routes/posts.js:91-93 | for any id other than `[object Object]`, the string-comparing filter keeps every record |
| `ToggleEngine.ToggleAsWritten` | routes/posts.js:90-110 | as written, the opposite list keeps exactly the records whose printed form differs from the user id, and the target list is toggled as in the keyed toggle |
| `ToggleEngine.AsWrittenKeepsOpposite` | routes/posts.js:90-93 | as written, for every id other than `[object Object]`, the opposite list is left as it was |
| `ToggleEngine.AsWrittenLeavesUserInBothLists` | routes/posts.js:138-140 | as written, a user (any id other than `[object Object]`) who liked and then dislikes is in both lists; the userId-keyed toggle moves them |
| `Lifecycle.TopicsGiven` | routes/posts.js:25 | `!topics` as the presence check: a missing value or `""` is falsy; a non-empty name or any array, even an empty one, counts as given (no contract: `CheckCreate` states it in its if-and-only-if) |
| `Lifecycle.TopicsArray` | routes/posts.js:33 | a single name becomes a one-element list and an array is kept as it is (no contract: used by `CheckCreate`) |
| `Lifecycle.FirstInvalid` | routes/posts.js:34 | none is found exactly when every name is a topic; a found name is not a topic and is the first such name in the list, every name before it being a topic |
| `Lifecycle.TopicGuardRejectsAsWritten` | routes/posts.js:34-35 | as written, the guard rejects exactly when the first name that is not a topic is non-empty; an empty name ahead of the first bad name lets the whole list through |
| `Lifecycle.TopicGuardRejectsOnlyBadNames` | routes/posts.js:34-35 | as written, the guard rejects only for a non-empty name that is not a topic, and never when every name is a topic or empty |
| `Lifecycle.ParseTopics` | routes/posts.js:32-37 | names convert exactly when none is invalid, position by position |
| `Lifecycle.CheckCreate` | routes/posts.js:25-44 | a create request passes exactly when title and body are non-empty, topics are given (an empty array counts), every topic is valid and minutes > 0 |
| `Lifecycle.AsWrittenTopicGuardAdmitsEmptyName` | routes/posts.js:34-37 | as written, `["Tech", ""]` and `["", "Bogus"]` pass the topic guard; `CheckCreate` refuses both |
| `Lifecycle.NewPost` | routes/posts.js:46-61 | the stored record is Live, satisfies the post invariant, and has `minutes * 60000` ms left at creation (none when minutes are not positive) |
| `Lifecycle.NewPostIsFresh` | routes/posts.js:46-61 | a new post is Live and not expired, has `minutes * 60` seconds left, has empty lists and satisfies the invariant |
| `Lifecycle.ReactOnPost` | routes/posts.js:71-117 | a reaction only ever changes the status and the two reaction lists, never reverts Expired, and leaves comments alone |
| `Lifecycle.ReactExpiryGate` | routes/posts.js:77-81 | past expiry a reaction fails with ExpiredConflict, the post becomes Expired, and both lists are unchanged |
| `Lifecycle.ReactOwnerGate` | routes/posts.js:84-88 | before expiry the owner's reaction fails and the post is unchanged |
| `Lifecycle.ReactToggles` | routes/posts.js:90-113 | a reaction that passes both gates succeeds, flips the actor in the target list and clears them from the opposite one, leaving other users' records in order; the answer is the last record of the new target list; a toggle-on appends one record (actor, kind, `floor((expiresAt - now)/1000)` seconds) and answers with it; a toggle-off never answers with the actor's record |
| `Lifecycle.NewReactorAppends` | routes/posts.js:90-113 | a reaction by a user in neither list, before expiry and not by the owner, appends their record to the target list, leaves the opposite list as it was and answers with that record |
| `Lifecycle.DoubleReactionRestores` | routes/posts.js:90-110 | two likes (or dislikes) by a non-owner in neither list, before expiry, restore the post exactly |
| `Lifecycle.ReactKeepsInvariant` | routes/posts.js:121-163 | every reaction, failed or not, keeps the post invariant (no user in both lists or twice in one, owner in neither, kinds right) |
| `Lifecycle.NoUserInBothLists` | routes/posts.js:90-93 | after any sequence of reactions no user is in both lists, none twice in one, and the owner in neither |
| `Lifecycle.LifecycleScenario` | routes/posts.js:71-163 | create for 60 minutes, two likes, a switch to dislike, a refused owner like, then a refused reaction after expiry that leaves the post Expired |
| `Lifecycle.CommentOnPost` | routes/posts.js:167-194 | a comment never touches the reaction lists, never reverts Expired, and only appends to comments |
| `Lifecycle.CommentAppends` | routes/posts.js:175-190 | past expiry a comment fails and marks the post Expired; otherwise, also for the owner, exactly one comment record is appended after the unchanged earlier ones and is the answer |
| `Lifecycle.CommentKeepsInvariant` | routes/posts.js:181-187 | comments keep the post invariant |
| `Lifecycle.Swept` | routes/posts.js:274-277 | the sweep changes only the status, keeps Expired, and marks a Live post Expired exactly when the expiry gate would |
| `Lifecycle.SweepAll` | routes/posts.js:274-277 | the bulk sweep applies the per-post sweep to every stored post |
| `Lifecycle.SweepSettles` | routes/posts.js:274-277 | after a sweep no post is Live past expiry, Expired stays Expired, only status changed, and a second sweep changes nothing |
| `Queries.Matches` | routes/posts.js:246-248 | a store filter: the topic is among the post's topics, and the status matches when one is given (no contract: `Queries.Find` keeps exactly the posts it accepts) |
| `Queries.Find` | routes/posts.js:209 | a store query keeps exactly the matching posts and never grows; that it keeps their order is `Queries.FindKeepsIdOrder`, for stores in id order |
| `Queries.FindKeepsIdOrder` | routes/posts.js:209 | over a store in id order, a query's result is in id order |
| `Queries.Score` | routes/posts.js:217-220 | the score is likes plus dislikes (the lists always exist, so the zero fallbacks never apply) |
| `Queries.PickMostInteresting` | routes/posts.js:215-225 | no candidates gives the marker; otherwise the result's score is the maximum of likes plus dislikes and the post is the first candidate with that score |
| `Queries.BestHasSmallestId` | routes/posts.js:216-225 | over candidates in id order, the scan's choice is a candidate, no candidate scores higher, and among candidates with its score it has the smallest id |
| `Queries.RankingOverStore` | routes/posts.js:209-225 | over a store in id order, the scan over the query result is the marker exactly when no stored post matches, and otherwise a matching post with the highest score and the smallest id among those with that score |
| `Queries.SortByExpiryDesc` | routes/posts.js:246-249 | the expired list is a permutation of its input, latest expiry first |
| `Queries.InsertByExpiryAddsOne` | routes/posts.js:249 | inserting one post into the ordered list adds exactly that post |
| `Queries.Reverse` | routes/posts.js:279 | newest first is reverse scan order: the same length, and the i-th post is the i-th from the end of scan order |
| `Queries.ReverseKeepsPosts` | routes/posts.js:279 | newest-first order holds exactly the same posts |
| `Queries.ReverseOfAscending` | routes/posts.js:279 | newest-first order of a list in id order has strictly descending ids |
| `Queries.NewestFirst` | routes/posts.js:279 | the browse list holds exactly the posts with the topic, ids strictly descending |
| `Queries.CommentViewOf` | routes/posts.js:285-291 | one comment as reported: user id, username, the text read from `value`, and the seconds left; `createdAt` is not modelled (no contract: a field projection used by `Queries.View`) |
| `Queries.View` | routes/posts.js:280-317 | the reported fields of one post: identity, totals, the three grouped maps and the comments with their text read from `value` |
| `Queries.ProjectPost` | routes/posts.js:280-317 | the built view is the post's view: totals, the three grouped maps, the flattened comments |
| `Queries.ProjectAll` | routes/posts.js:280-317 | the built list is the view of each post, in order |
| `Queries.ViewTotalsAgree` | routes/posts.js:303-313 | each grouped map's counts sum to the matching total |
| `Store.PostStore.Create` | routes/posts.js:21-67 | a refused request changes nothing; an accepted one appends a fresh post with the next id, expiring `minutes * 60000` ms after `now` |
| `Store.PostStore.React` | routes/posts.js:71-163 | an unknown id gives NotFound with no change; otherwise the stored post and the answer are the reaction's outcome on it; the store invariant holds |
| `Store.PostStore.AddComment` | routes/posts.js:167-194 | empty text is refused before the lookup, with no change; an unknown id gives NotFound; otherwise the stored post and the answer are the comment's outcome |
| `Store.PostStore.Sweep` | routes/posts.js:274-277 | the store becomes its bulk sweep |
| `Store.PostStore.MostInteresting` | routes/posts.js:197-231 | a bad topic is refused; otherwise the marker exactly when no stored post is Live with the topic, else a Live post with the topic whose score is the maximum and whose id is the smallest among posts with that score |
| `Store.PostStore.ExpiredList` | routes/posts.js:234-255 | a bad topic is refused; otherwise exactly the stored Expired posts with the topic, as a permutation of the query result, latest expiry first |
| `Store.PostStore.Browse` | routes/posts.js:258-323 | a bad topic is refused with no change; otherwise the store is swept first, and the answer is the view of every post with the topic, newest first, none of them Live past expiry |

## Left out

- Grouping.GroupByUser: the source counts into a plain object, so a username naming an inherited `Object.prototype` member is not a plain counter there. For `__proto__` the assignment is ignored and no key appears. For `constructor`, `toString`, `valueOf`, `hasOwnProperty` and the like, the count becomes a string. The model gives every name an integer count. Usernames are not restricted, and the model does not capture this.
- Grouping.GroupCountsAreMultiplicities: holds of the source only for usernames that are not inherited `Object.prototype` member names (see `Grouping.GroupByUser`).
- Grouping.GroupCountsSumToLength: holds of the source only for usernames that are not inherited `Object.prototype` member names (see `Grouping.GroupByUser`).
- Queries.ViewTotalsAgree: holds of the source only for usernames that are not inherited `Object.prototype` member names (see `Grouping.GroupByUser`).
- ToggleEngine.RecordString: a record the handlers push prints as `[object Object]`. A stored Mongoose subdocument may print differently, but never as a bare user id.
- HTTP routing, status codes, JSON bodies and the `auth` middleware: the caller arrives as a `Principal`, outcomes as `Response`.
- User accounts, password hashing and token signing (`routes/auth.js`): foreign library calls and database I/O.
- Mongoose casting and schema validation (`models/Post.js`, `models/User.js`): the model keeps the records the handlers build. The schema declares likes and dislikes as id arrays; the handlers push whole records, and the model follows the handlers.
- Unexpected store failures (the 500 paths), including a malformed post id.
- Races between load and save under concurrent requests: the store is sequential.
- The wall clock: `now` is a parameter in milliseconds.
- Mongo `createdAt` timestamps: the browse order is modelled as reverse store order, and the comment projection has no `createdAt`.
- Mongo's own sort: `Queries.SortByExpiryDesc` is an insertion sort that meets the same contract. The order among posts with equal `expiresAt` is not modelled.
- Parsing `expirationMinutes` with `Number` and `Number.isFinite`, and fractional minutes (floating point): minutes are an integer.
- Non-string request values (numbers or objects as titles or topics): every field is a string.

## Findings

| source | as written | input that shows it | evidently intended | confidence | as-written member | corrected member |
|---|---|---|---|---|---|---|
| routes/posts.js:90-93 | the opposite-list filter compares `String(u)`, the whole record printed as `[object Object]`, with the user id; no real id equals that, so the actor is never cleared from the opposite list (the same at 138-140) | user B likes a post, then dislikes it: B's records are in both lists | remove the actor's records keyed on `u.userId`, as the comment at line 90 and the toggle filter at 100-102 do | not executed; holds when the store keeps the pushed records, as the handlers' own `u.userId` reads expect | `ToggleEngine.AsWrittenLeavesUserInBothLists` | `ToggleEngine.ToggleKeepsExclusive` |
| routes/posts.js:34-35 | `if (invalid)` tests the found name for truthiness, so an empty name ahead of the first bad name lets the whole list through, bad names included | `topics: ["Tech", ""]`, `topics: ["", "Bogus"]` | refuse every name that is not one of the four topics | not executed; low impact: the schema's topic enum probably still refuses the record at create time, as a 500 instead of a 400 | `Lifecycle.AsWrittenTopicGuardAdmitsEmptyName` | `Lifecycle.CheckCreate` |

=== FILE: domain.dfy ===
/** Values of the post service: topics, statuses, principals, interaction records and posts. */
module Domain {

  datatype Option<+T> = None | Some(value: T)

  /** The fixed topic enumeration, shared by creation, storage and the topic queries. */
  datatype Topic = Politics | Health | Sport | Tech

  function TopicName(t: Topic): string
  {
    match t
    case Politics => "Politics"
    case Health => "Health"
    case Sport => "Sport"
    case Tech => "Tech"
  }

  /** `allowed.includes(name)` for the list of the four topic names. */
  function ParseTopic(name: string): (r: Option<Topic>)
    ensures r.Some? <==> name == "Politics" || name == "Health" || name == "Sport" || name == "Tech"
    ensures r.Some? ==> TopicName(r.value) == name
  {
    if name == "Politics" then Some(Politics)
    else if name == "Health" then Some(Health)
    else if name == "Sport" then Some(Sport)
    else if name == "Tech" then Some(Tech)
    else None
  }

  lemma TopicNameRoundTrip(t: Topic)
    ensures ParseTopic(TopicName(t)) == Some(t)
  {
  }

  datatype Status = Live | Expired

  /** The `type` tag of an interaction record. */
  datatype Kind = Like | Dislike | Comment

  /** The two toggleable kinds; the like and dislike handlers differ only in this. */
  type Reaction = k: Kind | k != Comment witness Like

  /** The authenticated caller as the handlers see it; the token may carry no username. */
  datatype Principal = Principal(userId: string, username: Option<string>)

  /**
   * One like, dislike or comment record. `value` holds the comment text (the handler writes
   * `value`, and the browse projection reads `value`); reaction records carry none.
   */
  datatype Interaction = Interaction(
    userId: string,
    username: Option<string>,
    kind: Kind,
    value: Option<string>,
    timeLeftSeconds: nat)

  /** A stored post; `expiresAt` is an absolute time in milliseconds. */
  datatype Post = Post(
    id: nat,
    title: string,
    topics: seq<Topic>,
    body: string,
    expiresAt: int,
    status: Status,
    owner: Principal,
    likes: seq<Interaction>,
    dislikes: seq<Interaction>,
    comments: seq<Interaction>)

  /** The outcomes the handlers report as HTTP statuses (200/201, 404, 403 expired, 403 owner, 400). */
  datatype Response<+T> = Ok(value: T) | NotFound | ExpiredConflict | SelfInteraction | ValidationError
}

=== FILE: expiry.dfy ===
/** The expiration helpers. The wall clock is the parameter `now`, in milliseconds. */
module Expiry {
  import opened Domain

  /** A post is expired strictly after its expiry instant. */
  predicate IsExpired(p: Post, now: int): (expired: bool)
    ensures expired <==> TimeLeftMs(p, now) == 0 && now != p.expiresAt
  {
    now > p.expiresAt
  }

  /** Remaining lifetime in milliseconds, clamped at zero. */
  function TimeLeftMs(p: Post, now: int): (ms: nat)
    ensures ms == 0 <==> now >= p.expiresAt
    ensures ms > 0 ==> now + ms == p.expiresAt
  {
    if p.expiresAt - now > 0 then p.expiresAt - now else 0
  }

  /** Remaining lifetime in whole seconds, rounded down. */
  function TimeLeftSeconds(p: Post, now: int): (s: nat)
    ensures s * 1000 <= TimeLeftMs(p, now) < (s + 1) * 1000
  {
    TimeLeftMs(p, now) / 1000
  }

  /** An expired post has no time left, and a post with time left is not expired. */
  lemma ExpiredMeansNoTimeLeft(p: Post, now: int)
    ensures IsExpired(p, now) ==> TimeLeftSeconds(p, now) == 0
    ensures TimeLeftSeconds(p, now) > 0 ==> !IsExpired(p, now)
  {
  }

  /** The time left never grows as the clock advances. */
  lemma TimeLeftShrinks(p: Post, earlier: int, later: int)
    requires earlier <= later
    ensures TimeLeftMs(p, later) <= TimeLeftMs(p, earlier)
    ensures TimeLeftSeconds(p, later) <= TimeLeftSeconds(p, earlier)
  {
  }
}

=== FILE: grouping.dfy ===
/** Per-user counting of an interaction list, as the browse view reports it. */
module Grouping {
  import opened Domain

  /** The key an entry with a missing or empty username is counted under. */
  const Unknown: string := "unknown"

  /** `item.username || "unknown"`: both a missing and an empty name are falsy. */
  function UserKey(item: Interaction): (key: string)
    ensures key == Unknown <==> item.username in {None, Some(""), Some(Unknown)}
    ensures key != Unknown ==> item.username == Some(key)
  {
    match item.username
    case Some(name) => if name != "" then name else Unknown
    case None => Unknown
  }

  /** The key of every entry, in list order. */
  function KeysOf(arr: seq<Interaction>): seq<string>
  {
    seq(|arr|, i requires 0 <= i < |arr| => UserKey(arr[i]))
  }

  /** The dictionary the grouping loop builds, one entry at a time from the left. */
  function GroupCounts(arr: seq<Interaction>): map<string, nat>
  {
    if arr == [] then map[]
    else
      var counts := GroupCounts(arr[..|arr| - 1]);
      var key := UserKey(arr[|arr| - 1]);
      counts[key := (if key in counts then counts[key] else 0) + 1]
  }

  /** Fills a dictionary with one count per user key, walking the list once. */
  method GroupByUser(arr: seq<Interaction>) returns (result: map<string, nat>)
    ensures result == GroupCounts(arr)
  {
    result := map[];
    for i := 0 to |arr|
      invariant result == GroupCounts(arr[..i])
    {
      assert arr[..i + 1][..i] == arr[..i];
      var name := UserKey(arr[i]);
      result := result[name := (if name in result then result[name] else 0) + 1];
    }
    assert arr[..|arr|] == arr;
  }

  /**
   * The grouped dictionary agrees with an independent description: its keys are exactly the
   * keys that occur, and each count is the multiplicity of that key in the list.
   */
  lemma {:induction false} GroupCountsAreMultiplicities(arr: seq<Interaction>)
    ensures forall key :: key in GroupCounts(arr) <==> key in multiset(KeysOf(arr))
    ensures forall key :: key in GroupCounts(arr) ==> GroupCounts(arr)[key] == multiset(KeysOf(arr))[key]
  {
    if arr != [] {
      var init := arr[..|arr| - 1];
      GroupCountsAreMultiplicities(init);
      assert KeysOf(arr) == KeysOf(init) + [UserKey(arr[|arr| - 1])];
    }
  }

  /** Sum of all counts of a dictionary. */
  ghost function SumCounts(m: map<string, nat>): nat
    decreases |m|
  {
    if m == map[] then 0
    else
      var key :| key in m;
      assert |m - {key}| < |m| by {
        assert (m - {key}).Keys == m.Keys - {key};
      }
      m[key] + SumCounts(m - {key})
  }

  /** Any one key may be taken out first when summing. */
  lemma {:induction false} SumCountsSplit(m: map<string, nat>, key: string)
    requires key in m
    ensures SumCounts(m) == m[key] + SumCounts(m - {key})
    decreases |m|
  {
    var chosen :| chosen in m && SumCounts(m) == m[chosen] + SumCounts(m - {chosen});
    if chosen != key {
      assert (m - {chosen}).Keys == m.Keys - {chosen};
      assert (m - {key}).Keys == m.Keys - {key};
      SumCountsSplit(m - {chosen}, key);
      SumCountsSplit(m - {key}, chosen);
      assert m - {chosen} - {key} == m - {key} - {chosen};
    }
  }

  /** Setting one count changes the sum by the difference. */
  lemma SumCountsUpdate(m: map<string, nat>, key: string, v: nat)
    ensures SumCounts(m[key := v]) + (if key in m then m[key] else 0) == SumCounts(m) + v
  {
    SumCountsSplit(m[key := v], key);
    assert m[key := v] - {key} == m - {key};
    if key in m {
      SumCountsSplit(m, key);
    } else {
      assert m - {key} == m;
    }
  }

  /** The counts sum to the length of the list: every entry is counted exactly once. */
  lemma {:induction false} GroupCountsSumToLength(arr: seq<Interaction>)
    ensures SumCounts(GroupCounts(arr)) == |arr|
  {
    if arr != [] {
      var init := arr[..|arr| - 1];
      GroupCountsSumToLength(init);
      var counts := GroupCounts(init);
      var key := UserKey(arr[|arr| - 1]);
      SumCountsUpdate(counts, key, (if key in counts then counts[key] else 0) + 1);
    }
  }

  /** Three entries by `a`, `a` and `b`, and one without a name, group as {a: 2, b: 1, unknown: 1}. */
  lemma GroupExample(uid: string)
    ensures GroupCounts([
              Interaction(uid, Some("a"), Like, None, 0),
              Interaction(uid, Some("a"), Like, None, 0),
              Interaction(uid, Some("b"), Like, None, 0),
              Interaction(uid, None, Like, None, 0)])
            == map["a" := 2, "b" := 1, Unknown := 1]
  {
    var a := Interaction(uid, Some("a"), Like, None, 0);
    var b := Interaction(uid, Some("b"), Like, None, 0);
    var n := Interaction(uid, None, Like, None, 0);
    var arr := [a, a, b, n];
    assert arr[..3] == [a, a, b];
    assert [a, a, b][..2] == [a, a];
    assert [a, a][..1] == [a];
    assert [a][..0] == [];
    assert GroupCounts([a]) == map["a" := 1];
    assert GroupCounts([a, a]) == map["a" := 2];
    assert GroupCounts([a, a, b]) == map["a" := 2, "b" := 1];
  }
}

=== FILE: lifecycle.dfy ===
/**
 * The post lifecycle on one post: creation and its validation, the expiry gate, the owner
 * gate, reaction toggling, comments and the bulk expiry sweep.
 */
module Lifecycle {
  import opened Domain
  import opened Expiry
  import opened ToggleEngine

  // ---------------------------------------------------------------- creation

  /**
   * The `topics` field of a create request: missing, a single name, or an array of names.
   * A missing title or body is modelled as the empty string, which is just as falsy.
   */
  datatype TopicsInput = Absent | One(name: string) | Many(names: seq<string>)

  /** `!!topics`: a missing value and an empty string are falsy; an array, even empty, is not. */
  predicate TopicsGiven(topics: TopicsInput)
  {
    !(topics.Absent? || topics == One(""))
  }

  /** `Array.isArray(topics) ? topics : [topics]`. */
  function TopicsArray(topics: TopicsInput): seq<string>
  {
    match topics
    case Absent => []
    case One(name) => [name]
    case Many(names) => names
  }

  /** `names.find(t => !allowed.includes(t))`: the first name that is not a topic. */
  function FirstInvalid(names: seq<string>): (r: Option<string>)
    ensures r.None? <==> forall i :: 0 <= i < |names| ==> ParseTopic(names[i]).Some?
    ensures r.Some? ==> ParseTopic(r.value).None? && r.value in names
    ensures r.Some? ==>
      (exists i :: 0 <= i < |names| && names[i] == r.value &&
         forall j :: 0 <= j < i ==> ParseTopic(names[j]).Some?)
  {
    if names == [] then None
    else if ParseTopic(names[0]).None? then Some(names[0])
    else FirstInvalid(names[1..])
  }

  /**
   * The topic guard as written, `if (invalid)`: the name `find` returns rejects the request
   * only when it is truthy, so an empty-string name is let through.
   */
  predicate TopicGuardRejectsAsWritten(names: seq<string>): (rejects: bool)
    ensures rejects <==>
      (exists i :: 0 <= i < |names| && names[i] != "" && ParseTopic(names[i]).None? &&
         forall j :: 0 <= j < i ==> ParseTopic(names[j]).Some?)
  {
    var invalid := FirstInvalid(names);
    invalid.Some? && invalid.value != ""
  }

  /**
   * Consequences of the guard as written: it rejects only for a non-empty name that is not a
   * topic, and never when every name is a topic or empty.
   */
  lemma TopicGuardRejectsOnlyBadNames(names: seq<string>)
    ensures TopicGuardRejectsAsWritten(names) ==> exists n :: n in names && n != "" && ParseTopic(n).None?
    ensures (forall n :: n in names ==> n == "" || ParseTopic(n).Some?) ==> !TopicGuardRejectsAsWritten(names)
  {
  }

  /**
   * As written, ["Tech", ""] passes the guard although "" is not a topic, and so does
   * ["", "Bogus"]: an empty name ahead of the first bad name lets the whole list through.
   */
  lemma AsWrittenTopicGuardAdmitsEmptyName()
    ensures !TopicGuardRejectsAsWritten(["Tech", ""])
    ensures FirstInvalid(["Tech", ""]) == Some("")
    ensures CheckCreate("t", Many(["Tech", ""]), "b", 5).ValidationError?
    ensures !TopicGuardRejectsAsWritten(["", "Bogus"])
    ensures FirstInvalid(["", "Bogus"]) == Some("")
    ensures CheckCreate("t", Many(["", "Bogus"]), "b", 5).ValidationError?
  {
    assert ["Tech", ""][1..] == [""];
  }

  /** The names as topics, when every name is one. */
  function ParseTopics(names: seq<string>): (r: Option<seq<Topic>>)
    ensures r.Some? <==> FirstInvalid(names).None?
    ensures r.Some? ==> |r.value| == |names| && forall i :: 0 <= i < |names| ==> TopicName(r.value[i]) == names[i]
  {
    if names == [] then Some([])
    else
      match (ParseTopic(names[0]), ParseTopics(names[1..]))
      case (Some(t), Some(ts)) => Some([t] + ts)
      case _ => None
  }

  /**
   * The create route's checks, in order: required fields (a zero minute count is falsy),
   * every topic valid (every invalid name rejects, including ""), then minutes above zero.
   */
  function CheckCreate(title: string, topics: TopicsInput, body: string, minutes: int): (r: Response<seq<Topic>>)
    ensures r.Ok? || r.ValidationError?
    ensures r.Ok? <==>
              title != "" && body != "" && minutes > 0 && TopicsGiven(topics)
              && forall i :: 0 <= i < |TopicsArray(topics)| ==> ParseTopic(TopicsArray(topics)[i]).Some?
    ensures r.Ok? ==>
              |r.value| == |TopicsArray(topics)|
              && forall i :: 0 <= i < |r.value| ==> TopicName(r.value[i]) == TopicsArray(topics)[i]
  {
    if title == "" || !TopicsGiven(topics) || body == "" || minutes == 0 then ValidationError
    else if FirstInvalid(TopicsArray(topics)).Some? then ValidationError
    else if minutes <= 0 then ValidationError
    else Ok(ParseTopics(TopicsArray(topics)).value)
  }

  /** The record `Post.create` stores: Live, expiring `minutes` after `now`, with no interactions. */
  function NewPost(id: nat, title: string, topics: seq<Topic>, body: string, minutes: int, owner: Principal, now: int): (p: Post)
    ensures PostInvariant(p) && p.status == Live
    ensures TimeLeftMs(p, now) == if minutes > 0 then minutes * 60000 else 0
  {
    Post(id, title, topics, body, now + minutes * 60000, Live, owner, [], [], [])
  }

  // ---------------------------------------------------------------- invariants

  /**
   * What every stored post satisfies: no user in both reaction lists, no user twice in one,
   * the owner in neither, and every record of the kind its list holds.
   */
  predicate PostInvariant(p: Post)
  {
    Exclusive(p.likes, p.dislikes) && UniqueUsers(p.likes) && UniqueUsers(p.dislikes)
    && !HasUser(p.likes, p.owner.userId) && !HasUser(p.dislikes, p.owner.userId)
    && AllOfKind(p.likes, Like) && AllOfKind(p.dislikes, Dislike) && AllOfKind(p.comments, Comment)
  }

  /**
   * How a stored post may evolve: its identity, content, owner and expiry are fixed, an
   * Expired post never becomes Live again, and comments are only ever appended.
   */
  predicate Successor(p: Post, q: Post)
  {
    q.id == p.id && q.title == p.title && q.topics == p.topics && q.body == p.body
    && q.expiresAt == p.expiresAt && q.owner == p.owner
    && (p.status == Expired ==> q.status == Expired)
    && |p.comments| <= |q.comments| && q.comments[..|p.comments|] == p.comments
  }

  /** A fresh post is Live, not expired, has its whole lifetime left and satisfies the invariant. */
  lemma NewPostIsFresh(id: nat, title: string, topics: seq<Topic>, body: string, minutes: int, owner: Principal, now: int)
    requires minutes > 0
    ensures var p := NewPost(id, title, topics, body, minutes, owner, now);
            p.status == Live && !IsExpired(p, now) && TimeLeftSeconds(p, now) == minutes * 60
            && p.likes == [] && p.dislikes == [] && p.comments == [] && PostInvariant(p)
  {
    var p := NewPost(id, title, topics, body, minutes, owner, now);
    assert TimeLeftMs(p, now) == (minutes * 60) * 1000;
  }

  // ---------------------------------------------------------------- reactions

  /** The list a reaction toggles in. */
  function Reactions(p: Post, reaction: Reaction): seq<Interaction>
  {
    if reaction == Like then p.likes else p.dislikes
  }

  /** The list a reaction clears the actor from. */
  function Opposing(p: Post, reaction: Reaction): seq<Interaction>
  {
    if reaction == Like then p.dislikes else p.likes
  }

  function WithReactions(p: Post, reaction: Reaction, target: seq<Interaction>, opposite: seq<Interaction>): (q: Post)
    ensures Reactions(q, reaction) == target && Opposing(q, reaction) == opposite
  {
    if reaction == Like then p.(likes := target, dislikes := opposite)
    else p.(dislikes := target, likes := opposite)
  }

  /** The post as it is saved after a command, and what the command answers. */
  datatype Applied = Applied(post: Post, response: Response<Option<Interaction>>)

  /**
   * A like or dislike on a post that was found: the expiry gate (flip to Expired and fail,
   * whatever the stored status), then the owner gate, then the toggle. The answer is the
   * last record of the target list, whoever it belongs to.
   */
  function ReactOnPost(p: Post, actor: Principal, reaction: Reaction, now: int): (a: Applied)
    ensures Successor(p, a.post) && a.post.comments == p.comments
  {
    if IsExpired(p, now) then Applied(p.(status := Expired), ExpiredConflict)
    else if p.owner.userId == actor.userId then Applied(p, SelfInteraction)
    else
      var rec := Interaction(actor.userId, actor.username, reaction, None, TimeLeftSeconds(p, now));
      var lists := Toggle(Reactions(p, reaction), Opposing(p, reaction), rec);
      Applied(WithReactions(p, reaction, lists.0, lists.1), Ok(LastOf(lists.0)))
  }

  /** On an expired post a reaction fails, marks the post Expired and leaves both lists alone. */
  lemma ReactExpiryGate(p: Post, actor: Principal, reaction: Reaction, now: int)
    requires IsExpired(p, now)
    ensures var a := ReactOnPost(p, actor, reaction, now);
            a.response == ExpiredConflict && a.post.status == Expired
            && a.post.likes == p.likes && a.post.dislikes == p.dislikes
  {
  }

  /** On a post that has not expired, the owner's reaction fails and nothing changes. */
  lemma ReactOwnerGate(p: Post, actor: Principal, reaction: Reaction, now: int)
    requires !IsExpired(p, now) && actor.userId == p.owner.userId
    ensures ReactOnPost(p, actor, reaction, now) == Applied(p, SelfInteraction)
  {
  }

  /**
   * A reaction that passes both gates succeeds, removes the actor from the opposite list and
   * flips their presence in the target list, leaving every other user's records, in order,
   * where they were. A toggle-on appends exactly one record, with the actor's id and name,
   * the reaction's kind and the whole seconds left, and answers with it; a toggle-off never
   * answers with a record of the actor.
   */
  lemma ReactToggles(p: Post, actor: Principal, reaction: Reaction, now: int)
    requires !IsExpired(p, now) && actor.userId != p.owner.userId
    ensures var a := ReactOnPost(p, actor, reaction, now);
            var uid := actor.userId;
            a.response.Ok? && a.post.status == p.status
            && (HasUser(Reactions(a.post, reaction), uid) <==> !HasUser(Reactions(p, reaction), uid))
            && !HasUser(Opposing(a.post, reaction), uid)
            && RemoveUser(Reactions(a.post, reaction), uid) == RemoveUser(Reactions(p, reaction), uid)
            && RemoveUser(Opposing(a.post, reaction), uid) == RemoveUser(Opposing(p, reaction), uid)
    ensures var a := ReactOnPost(p, actor, reaction, now);
            a.response == Ok(LastOf(Reactions(a.post, reaction)))
    ensures var a := ReactOnPost(p, actor, reaction, now);
            HasUser(Reactions(p, reaction), actor.userId) ==>
              a.response.value.None? || a.response.value.value.userId != actor.userId
    ensures var a := ReactOnPost(p, actor, reaction, now);
            var rec := Interaction(actor.userId, actor.username, reaction, None, (p.expiresAt - now) / 1000);
            !HasUser(Reactions(p, reaction), actor.userId) ==>
              Reactions(a.post, reaction) == Reactions(p, reaction) + [rec] && a.response == Ok(Some(rec))
  {
    var uid := actor.userId;
    var rec := Interaction(uid, actor.username, reaction, None, TimeLeftSeconds(p, now));
    assert TimeLeftSeconds(p, now) == (p.expiresAt - now) / 1000;
    var target, opposite := Reactions(p, reaction), Opposing(p, reaction);
    var lists := Toggle(target, opposite, rec);
    ToggleFlips(target, opposite, rec);
    var a := ReactOnPost(p, actor, reaction, now);
    assert a == Applied(WithReactions(p, reaction, lists.0, lists.1), Ok(LastOf(lists.0)));
    assert Reactions(a.post, reaction) == lists.0 && Opposing(a.post, reaction) == lists.1;
    if HasUser(target, uid) && LastOf(lists.0).Some? {
      assert LastOf(lists.0).value in lists.0;
    }
  }

  /**
   * Two successive likes (or dislikes) by a non-owner who is in neither list, both before
   * expiry, leave the post exactly as it was.
   */
  lemma DoubleReactionRestores(p: Post, actor: Principal, reaction: Reaction, first: int, second: int)
    requires !IsExpired(p, first) && !IsExpired(p, second)
    requires actor.userId != p.owner.userId
    requires !HasUser(p.likes, actor.userId) && !HasUser(p.dislikes, actor.userId)
    ensures var once := ReactOnPost(p, actor, reaction, first);
            ReactOnPost(once.post, actor, reaction, second).post == p
  {
    var recFirst := Interaction(actor.userId, actor.username, reaction, None, TimeLeftSeconds(p, first));
    var once := ReactOnPost(p, actor, reaction, first);
    var recSecond := Interaction(actor.userId, actor.username, reaction, None, TimeLeftSeconds(once.post, second));
    DoubleToggleRestores(Reactions(p, reaction), Opposing(p, reaction), recFirst, recSecond);
  }

  /** Every reaction, successful or not, keeps the post invariant. */
  lemma ReactKeepsInvariant(p: Post, actor: Principal, reaction: Reaction, now: int)
    requires PostInvariant(p)
    ensures PostInvariant(ReactOnPost(p, actor, reaction, now).post)
  {
    if !IsExpired(p, now) && p.owner.userId != actor.userId {
      var rec := Interaction(actor.userId, actor.username, reaction, None, TimeLeftSeconds(p, now));
      var target, opposite := Reactions(p, reaction), Opposing(p, reaction);
      assert Exclusive(target, opposite) by {
        if reaction == Dislike {
          forall x, y | x in target && y in opposite ensures x.userId != y.userId {
            assert y in p.likes && x in p.dislikes;
          }
        }
      }
      ToggleKeepsExclusive(target, opposite, rec);
      var lists := Toggle(target, opposite, rec);
      var q := ReactOnPost(p, actor, reaction, now).post;
      assert q.likes == (if reaction == Like then lists.0 else lists.1);
      assert q.dislikes == (if reaction == Like then lists.1 else lists.0);
      assert Exclusive(q.likes, q.dislikes) by {
        if reaction == Dislike {
          forall x, y | x in q.likes && y in q.dislikes ensures x.userId != y.userId {
            assert x in lists.1 && y in lists.0;
          }
        }
      }
    }
  }

  /** A sequence of reactions, each by a principal at a time, applied one after another. */
  function ReactAll(p: Post, commands: seq<(Principal, Reaction, int)>): Post
    decreases |commands|
  {
    if commands == [] then p
    else
      var c := commands[0];
      ReactAll(ReactOnPost(p, c.0, c.1, c.2).post, commands[1..])
  }

  /** Whatever reactions arrive, no user is ever in both lists, nor twice in one. */
  lemma {:induction false} NoUserInBothLists(p: Post, commands: seq<(Principal, Reaction, int)>)
    requires PostInvariant(p)
    ensures var q := ReactAll(p, commands);
            Exclusive(q.likes, q.dislikes) && UniqueUsers(q.likes) && UniqueUsers(q.dislikes)
            && !HasUser(q.likes, q.owner.userId) && !HasUser(q.dislikes, q.owner.userId)
    decreases |commands|
  {
    if commands != [] {
      var c := commands[0];
      ReactKeepsInvariant(p, c.0, c.1, c.2);
      NoUserInBothLists(ReactOnPost(p, c.0, c.1, c.2).post, commands[1..]);
    }
  }

  /**
   * A reaction by a user in neither list, before expiry and not by the owner, appends their
   * record to the target list, leaves the opposite list as it was and answers with the record.
   */
  lemma NewReactorAppends(p: Post, actor: Principal, reaction: Reaction, now: int)
    requires !IsExpired(p, now) && actor.userId != p.owner.userId
    requires !HasUser(p.likes, actor.userId) && !HasUser(p.dislikes, actor.userId)
    ensures var rec := Interaction(actor.userId, actor.username, reaction, None, (p.expiresAt - now) / 1000);
            ReactOnPost(p, actor, reaction, now)
              == Applied(WithReactions(p, reaction, Reactions(p, reaction) + [rec], Opposing(p, reaction)), Ok(Some(rec)))
  {
    var rec := Interaction(actor.userId, actor.username, reaction, None, TimeLeftSeconds(p, now));
    assert TimeLeftSeconds(p, now) == (p.expiresAt - now) / 1000;
    var target, opposite := Reactions(p, reaction), Opposing(p, reaction);
    ToggleFlips(target, opposite, rec);
    RemoveAbsentUser(opposite, actor.userId);
    assert Toggle(target, opposite, rec) == (target + [rec], opposite);
  }

  /** The scenario's first two steps: two users like a fresh post, each appended in turn. */
  lemma ScenarioTwoLikes(owner: Principal, a: Principal, b: Principal, now: int)
    requires owner.userId != a.userId && owner.userId != b.userId && a.userId != b.userId
    ensures var p0 := NewPost(0, "title", [Tech], "body", 60, owner, now);
            var ra := Interaction(a.userId, a.username, Like, None, 3600);
            var rb := Interaction(b.userId, b.username, Like, None, 3599);
            ReactOnPost(ReactOnPost(p0, a, Like, now).post, b, Like, now + 1000).post == p0.(likes := [ra, rb])
  {
    var p0 := NewPost(0, "title", [Tech], "body", 60, owner, now);
    var ra := Interaction(a.userId, a.username, Like, None, 3600);
    var rb := Interaction(b.userId, b.username, Like, None, 3599);
    var none: seq<Interaction> := [];
    NewReactorAppends(p0, a, Like, now);
    assert none + [ra] == [ra];
    var p1 := p0.(likes := [ra]);
    assert ReactOnPost(p0, a, Like, now).post == p1;
    assert !HasUser(p1.likes, b.userId);
    NewReactorAppends(p1, b, Like, now + 1000);
  }

  /** The scenario's third step: the first liker dislikes, moving from likes to dislikes. */
  lemma ScenarioSwitch(owner: Principal, a: Principal, b: Principal, now: int)
    requires owner.userId != a.userId && owner.userId != b.userId && a.userId != b.userId
    ensures var p0 := NewPost(0, "title", [Tech], "body", 60, owner, now);
            var ra := Interaction(a.userId, a.username, Like, None, 3600);
            var rb := Interaction(b.userId, b.username, Like, None, 3599);
            var da := Interaction(a.userId, a.username, Dislike, None, 3598);
            ReactOnPost(p0.(likes := [ra, rb]), a, Dislike, now + 2000).post == p0.(likes := [rb], dislikes := [da])
  {
    var p0 := NewPost(0, "title", [Tech], "body", 60, owner, now);
    var ra := Interaction(a.userId, a.username, Like, None, 3600);
    var rb := Interaction(b.userId, b.username, Like, None, 3599);
    var da := Interaction(a.userId, a.username, Dislike, None, 3598);
    var p2 := p0.(likes := [ra, rb]);
    assert RemoveUser([ra, rb], a.userId) == [rb] by {
      assert [ra, rb][1..] == [rb];
      assert [rb][1..] == [];
    }
    assert !HasUser(p2.dislikes, a.userId);
    var none: seq<Interaction> := [];
    assert none + [da] == [da];
  }

  /**
   * A post created for 60 minutes is liked by two users; the first then dislikes it and
   * moves from likes to dislikes; the owner's like is refused; after the hour any reaction
   * fails and the post is Expired.
   */
  lemma LifecycleScenario(owner: Principal, a: Principal, b: Principal, now: int)
    requires owner.userId != a.userId && owner.userId != b.userId && a.userId != b.userId
    ensures var p0 := NewPost(0, "title", [Tech], "body", 60, owner, now);
            var p1 := ReactOnPost(p0, a, Like, now).post;
            var p2 := ReactOnPost(p1, b, Like, now + 1000).post;
            var s3 := ReactOnPost(p2, a, Dislike, now + 2000);
            var s4 := ReactOnPost(s3.post, owner, Like, now + 3000);
            var s5 := ReactOnPost(s4.post, b, Dislike, now + 3600001);
            |p2.likes| == 2 && |s3.post.likes| == 1 && |s3.post.dislikes| == 1
            && s3.post.likes[0].userId == b.userId && s3.post.dislikes[0].userId == a.userId
            && s4.response == SelfInteraction
            && s5.response == ExpiredConflict && s5.post.status == Expired
  {
    ScenarioTwoLikes(owner, a, b, now);
    ScenarioSwitch(owner, a, b, now);
  }

  // ---------------------------------------------------------------- comments

  /**
   * A comment on a post that was found (empty text was already refused): the expiry gate,
   * then the comment record is appended. There is no owner gate.
   */
  function CommentOnPost(p: Post, actor: Principal, text: string, now: int): (a: Applied)
    ensures Successor(p, a.post)
    ensures a.post.likes == p.likes && a.post.dislikes == p.dislikes
  {
    if IsExpired(p, now) then Applied(p.(status := Expired), ExpiredConflict)
    else
      var rec := Interaction(actor.userId, actor.username, Comment, Some(text), TimeLeftSeconds(p, now));
      Applied(p.(comments := p.comments + [rec]), Ok(Some(rec)))
  }

  /**
   * On an expired post a comment fails, marks it Expired and adds nothing. Otherwise, also for
   * the owner, exactly one comment record with the actor's id and name and the text is
   * appended after the unchanged earlier comments, and it is the answer.
   */
  lemma CommentAppends(p: Post, actor: Principal, text: string, now: int)
    ensures var a := CommentOnPost(p, actor, text, now);
            IsExpired(p, now) ==> a.response == ExpiredConflict && a.post.status == Expired && a.post.comments == p.comments
    ensures var a := CommentOnPost(p, actor, text, now);
            !IsExpired(p, now) ==>
              |a.post.comments| == |p.comments| + 1 && a.post.comments[..|p.comments|] == p.comments
              && a.post.status == p.status
              && var c := a.post.comments[|p.comments|];
                 c.userId == actor.userId && c.username == actor.username && c.kind == Comment
                 && c.value == Some(text) && c.timeLeftSeconds == (p.expiresAt - now) / 1000
                 && a.response == Ok(Some(c))
  {
  }

  /** Comments keep the post invariant. */
  lemma CommentKeepsInvariant(p: Post, actor: Principal, text: string, now: int)
    requires PostInvariant(p)
    ensures PostInvariant(CommentOnPost(p, actor, text, now).post)
  {
  }

  // ---------------------------------------------------------------- sweep

  /** The browse route's bulk update on one record: Live and past its expiry becomes Expired. */
  function Swept(p: Post, now: int): (q: Post)
    ensures Successor(p, q)
    ensures q == p.(status := q.status)
    ensures p.status == Expired ==> q.status == Expired
    ensures p.status == Live ==> (q.status == Expired <==> IsExpired(p, now))
  {
    if p.status == Live && p.expiresAt < now then p.(status := Expired) else p
  }

  /** The sweep over the whole store. */
  function SweepAll(ps: seq<Post>, now: int): (qs: seq<Post>)
    ensures |qs| == |ps|
    ensures forall i :: 0 <= i < |ps| ==> qs[i] == Swept(ps[i], now)
  {
    if ps == [] then [] else [Swept(ps[0], now)] + SweepAll(ps[1..], now)
  }

  /**
   * After a sweep no post is Live past its expiry, Expired posts are still Expired, only
   * the status field changed, and sweeping again at the same time changes nothing.
   */
  lemma SweepSettles(ps: seq<Post>, now: int)
    ensures var qs := SweepAll(ps, now);
            (forall i :: 0 <= i < |qs| ==> !(qs[i].status == Live && qs[i].expiresAt < now))
            && (forall i :: 0 <= i < |qs| ==> ps[i].status == Expired ==> qs[i].status == Expired)
            && (forall i :: 0 <= i < |qs| ==> qs[i] == ps[i].(status := qs[i].status))
            && SweepAll(qs, now) == qs
  {
  }
}

=== FILE: queries.dfy ===
/**
 * The read side: store queries by topic and status, the most-interesting choice, the
 * expired list ordering and the browse view of a post.
 */
module Queries {
  import opened Domain
  import opened Grouping

  // ---------------------------------------------------------------- store queries

  /** A `Post.find` filter: the topic must be among the post's topics; the status, if given, must match. */
  datatype Query = Query(topic: Topic, status: Option<Status>)

  predicate Matches(p: Post, q: Query)
  {
    q.topic in p.topics && (q.status.Some? ==> p.status == q.status.value)
  }

  /** Store scan order is id order. */
  predicate IdsAscending(ps: seq<Post>)
  {
    forall i, j :: 0 <= i < j < |ps| ==> ps[i].id < ps[j].id
  }

  /** `Post.find(query)`: the matching posts, in scan order. */
  function Find(ps: seq<Post>, q: Query): (r: seq<Post>)
    ensures forall p :: p in r <==> p in ps && Matches(p, q)
    ensures |r| <= |ps|
  {
    if ps == [] then []
    else
      var rest := Find(ps[1..], q);
      assert forall p :: p in ps <==> p == ps[0] || p in ps[1..];
      (if Matches(ps[0], q) then [ps[0]] else []) + rest
  }

  /** A query keeps scan order: over a store in id order, its result is in id order. */
  lemma {:induction false} FindKeepsIdOrder(ps: seq<Post>, q: Query)
    requires IdsAscending(ps)
    ensures IdsAscending(Find(ps, q))
  {
    if ps != [] {
      var rest := Find(ps[1..], q);
      assert IdsAscending(ps[1..]);
      FindKeepsIdOrder(ps[1..], q);
      if Matches(ps[0], q) {
        var r := [ps[0]] + rest;
        forall j | 1 <= j < |r| ensures r[0].id < r[j].id {
          assert r[j] in ps[1..];
          var k :| 0 <= k < |ps| - 1 && ps[1..][k] == r[j];
          assert ps[k + 1] == r[j];
        }
      }
    }
  }

  // ---------------------------------------------------------------- most interesting

  /** Likes plus dislikes. */
  function Score(p: Post): nat
  {
    |p.likes| + |p.dislikes|
  }

  /** The answer of the most-interesting query: a marker, or the chosen post and its score. */
  datatype Ranking = NoActivePosts | Best(post: Post, score: nat)

  /**
   * The scan's promise: the marker exactly when there are no candidates; otherwise the
   * chosen post's score is the highest, and no earlier candidate reaches it.
   */
  predicate FirstWithBestScore(candidates: seq<Post>, r: Ranking)
  {
    (r == NoActivePosts <==> candidates == [])
    && (r.Best? ==>
          r.score == Score(r.post)
          && (forall j :: 0 <= j < |candidates| ==> Score(candidates[j]) <= r.score)
          && exists k :: 0 <= k < |candidates| && candidates[k] == r.post
                         && forall j :: 0 <= j < k ==> Score(candidates[j]) < r.score)
  }

  /**
   * Scans the candidates keeping the best so far, replacing it only on a strictly higher
   * score: the result has the highest score, and it is the first candidate with that score.
   */
  method PickMostInteresting(candidates: seq<Post>) returns (r: Ranking)
    ensures FirstWithBestScore(candidates, r)
  {
    if |candidates| == 0 {
      return NoActivePosts;
    }
    var best := candidates[0];
    var bestScore := Score(best);
    ghost var bestIndex := 0;
    for i := 0 to |candidates|
      invariant 0 <= bestIndex < |candidates| && best == candidates[bestIndex]
      invariant bestScore == Score(best)
      invariant bestIndex <= i
      invariant forall j :: 0 <= j < i ==> Score(candidates[j]) <= bestScore
      invariant forall j :: 0 <= j < bestIndex ==> Score(candidates[j]) < bestScore
    {
      var score := Score(candidates[i]);
      if score > bestScore {
        best := candidates[i];
        bestScore := score;
        bestIndex := i;
      }
    }
    r := Best(best, bestScore);
  }

  /** Over candidates in id order, the first with the best score has the smallest id among them. */
  lemma BestHasSmallestId(candidates: seq<Post>, r: Ranking)
    requires IdsAscending(candidates) && FirstWithBestScore(candidates, r) && r.Best?
    ensures r.post in candidates
    ensures forall p :: p in candidates ==> Score(p) <= r.score
    ensures forall p :: p in candidates && Score(p) == r.score ==> r.post.id <= p.id
  {
    var k :| 0 <= k < |candidates| && candidates[k] == r.post
             && forall j :: 0 <= j < k ==> Score(candidates[j]) < r.score;
    forall p | p in candidates ensures Score(p) <= r.score {
      var j :| 0 <= j < |candidates| && candidates[j] == p;
    }
    forall p | p in candidates && Score(p) == r.score ensures r.post.id <= p.id {
      var j :| 0 <= j < |candidates| && candidates[j] == p;
      assert k <= j;
    }
  }

  /**
   * Over a store in id order, the choice among the query's results is the choice over the
   * store: the marker exactly when no post matches; otherwise a matching post with the
   * highest score and the smallest id among those with that score.
   */
  lemma RankingOverStore(ps: seq<Post>, q: Query, r: Ranking)
    requires IdsAscending(ps) && FirstWithBestScore(Find(ps, q), r)
    ensures r == NoActivePosts <==> forall p :: p in ps ==> !Matches(p, q)
    ensures r.Best? ==>
              r.post in ps && Matches(r.post, q) && r.score == Score(r.post)
              && (forall p :: p in ps && Matches(p, q) ==> Score(p) <= r.score)
              && (forall p :: p in ps && Matches(p, q) && Score(p) == r.score ==> r.post.id <= p.id)
  {
    var candidates := Find(ps, q);
    if r.Best? {
      FindKeepsIdOrder(ps, q);
      BestHasSmallestId(candidates, r);
    } else {
      assert candidates == [];
    }
  }

  // ---------------------------------------------------------------- expired list

  /** Ordered by `expiresAt`, latest first. */
  predicate LatestExpiryFirst(ps: seq<Post>)
  {
    forall i, j :: 0 <= i < j < |ps| ==> ps[i].expiresAt >= ps[j].expiresAt
  }

  function InsertByExpiry(p: Post, sorted: seq<Post>): (r: seq<Post>)
    requires LatestExpiryFirst(sorted)
    ensures LatestExpiryFirst(r)
    ensures forall x :: x in r ==> x in sorted || x == p
  {
    if sorted == [] || p.expiresAt >= sorted[0].expiresAt then [p] + sorted
    else
      var head, tail := sorted[0], sorted[1..];
      var rest := InsertByExpiry(p, tail);
      assert forall x :: x in tail ==> x in sorted && x.expiresAt <= head.expiresAt by {
        forall x | x in tail ensures x in sorted && x.expiresAt <= head.expiresAt {
          var k :| 0 <= k < |tail| && tail[k] == x;
          assert sorted[k + 1] == x;
        }
      }
      var r := [head] + rest;
      forall j | 1 <= j < |r| ensures r[0].expiresAt >= r[j].expiresAt {
        assert r[j] in rest;
      }
      r
  }

  /** Inserting adds exactly the one post. */
  lemma {:induction false} InsertByExpiryAddsOne(p: Post, sorted: seq<Post>)
    requires LatestExpiryFirst(sorted)
    ensures multiset(InsertByExpiry(p, sorted)) == multiset(sorted) + multiset{p}
  {
    if sorted != [] && p.expiresAt < sorted[0].expiresAt {
      InsertByExpiryAddsOne(p, sorted[1..]);
      assert sorted == [sorted[0]] + sorted[1..];
    }
  }

  /** `.sort({ expiresAt: -1 })`: a permutation of its input, latest expiry first. */
  function SortByExpiryDesc(ps: seq<Post>): (r: seq<Post>)
    ensures LatestExpiryFirst(r)
    ensures multiset(r) == multiset(ps)
  {
    if ps == [] then []
    else
      var rest := SortByExpiryDesc(ps[1..]);
      InsertByExpiryAddsOne(ps[0], rest);
      assert ps == [ps[0]] + ps[1..];
      InsertByExpiry(ps[0], rest)
  }

  // ---------------------------------------------------------------- browse view

  /** Newest first: the reverse of scan order. */
  function Reverse(ps: seq<Post>): (r: seq<Post>)
    ensures |r| == |ps|
    ensures forall i :: 0 <= i < |ps| ==> r[i] == ps[|ps| - 1 - i]
  {
    if ps == [] then [] else Reverse(ps[1..]) + [ps[0]]
  }

  /** Reversing keeps exactly the same posts. */
  lemma ReverseKeepsPosts(ps: seq<Post>)
    ensures forall p :: p in Reverse(ps) <==> p in ps
  {
    var r := Reverse(ps);
    forall p | p in r ensures p in ps {
      var i :| 0 <= i < |r| && r[i] == p;
      assert ps[|ps| - 1 - i] == p;
    }
    forall p | p in ps ensures p in r {
      var i :| 0 <= i < |ps| && ps[i] == p;
      assert r[|ps| - 1 - i] == p;
    }
  }

  /** Reversing a sequence in id order gives strictly descending ids. */
  lemma ReverseOfAscending(ps: seq<Post>)
    requires IdsAscending(ps)
    ensures forall i, j :: 0 <= i < j < |Reverse(ps)| ==> Reverse(ps)[i].id > Reverse(ps)[j].id
  {
    var r := Reverse(ps);
    forall i, j | 0 <= i < j < |r| ensures r[i].id > r[j].id {
      assert r[i] == ps[|ps| - 1 - i] && r[j] == ps[|ps| - 1 - j];
    }
  }

  /** Newest first: the reversed query result holds exactly the matching posts, ids strictly descending. */
  lemma NewestFirst(ps: seq<Post>, q: Query)
    requires IdsAscending(ps)
    ensures var shown := Reverse(Find(ps, q));
            (forall p :: p in shown <==> p in ps && Matches(p, q))
            && forall i, j :: 0 <= i < j < |shown| ==> shown[i].id > shown[j].id
  {
    FindKeepsIdOrder(ps, q);
    ReverseKeepsPosts(Find(ps, q));
    ReverseOfAscending(Find(ps, q));
  }

  datatype Totals = Totals(likes: nat, dislikes: nat, comments: nat)

  /** A flattened comment; the comment text is read from the record's `value`. */
  datatype CommentView = CommentView(userId: string, username: Option<string>, text: Option<string>, timeLeftSeconds: nat)

  datatype PostView = PostView(
    id: nat,
    title: string,
    topics: seq<Topic>,
    status: Status,
    owner: Principal,
    totals: Totals,
    likesByUser: map<string, nat>,
    dislikesByUser: map<string, nat>,
    commentsByUser: map<string, nat>,
    comments: seq<CommentView>)

  function CommentViewOf(c: Interaction): CommentView
  {
    CommentView(c.userId, c.username, c.value, c.timeLeftSeconds)
  }

  /** What the browse route reports for one post. */
  function View(p: Post): PostView
  {
    PostView(
      p.id, p.title, p.topics, p.status, p.owner,
      Totals(|p.likes|, |p.dislikes|, |p.comments|),
      GroupCounts(p.likes), GroupCounts(p.dislikes), GroupCounts(p.comments),
      seq(|p.comments|, i requires 0 <= i < |p.comments| => CommentViewOf(p.comments[i])))
  }

  /** Builds the view of one post, grouping each of its three lists with the grouping loop. */
  method ProjectPost(p: Post) returns (v: PostView)
    ensures v == View(p)
  {
    var likesByUser := GroupByUser(p.likes);
    var dislikesByUser := GroupByUser(p.dislikes);
    var commentsByUser := GroupByUser(p.comments);
    var comments := seq(|p.comments|, i requires 0 <= i < |p.comments| => CommentViewOf(p.comments[i]));
    v := PostView(
      p.id, p.title, p.topics, p.status, p.owner,
      Totals(|p.likes|, |p.dislikes|, |p.comments|),
      likesByUser, dislikesByUser, commentsByUser, comments);
  }

  /** Builds the view of every post in order. */
  method ProjectAll(ps: seq<Post>) returns (views: seq<PostView>)
    ensures |views| == |ps| && forall i :: 0 <= i < |ps| ==> views[i] == View(ps[i])
  {
    views := [];
    for i := 0 to |ps|
      invariant |views| == i
      invariant forall k :: 0 <= k < i ==> views[k] == View(ps[k])
    {
      var v := ProjectPost(ps[i]);
      views := views + [v];
    }
  }

  /**
   * The totals and the grouped maps of a view agree: each grouped map's counts sum to the
   * matching total, and the flattened comment list has one entry per comment.
   */
  lemma ViewTotalsAgree(p: Post)
    ensures var v := View(p);
            SumCounts(v.likesByUser) == v.totals.likes
            && SumCounts(v.dislikesByUser) == v.totals.dislikes
            && SumCounts(v.commentsByUser) == v.totals.comments
            && |v.comments| == v.totals.comments
  {
    GroupCountsSumToLength(p.likes);
    GroupCountsSumToLength(p.dislikes);
    GroupCountsSumToLength(p.comments);
  }
}

=== FILE: store.dfy ===
/**
 * The post store and the route handlers as operations on it. Posts are kept in scan order;
 * the store gives each new post the next id, which is its position (there is no deletion).
 */
module Store {
  import opened Domain
  import opened Expiry
  import opened ToggleEngine
  import opened Lifecycle
  import opened Queries

  /** Every post already stored evolves as `Successor` allows; new posts may be added at the end. */
  predicate Successors(before: seq<Post>, after: seq<Post>)
  {
    |before| <= |after| && forall i :: 0 <= i < |before| ==> Successor(before[i], after[i])
  }

  /** Every stored post carries its position as id and satisfies the post invariant. */
  predicate ValidPosts(ps: seq<Post>)
  {
    forall i :: 0 <= i < |ps| ==> ps[i].id == i && PostInvariant(ps[i])
  }

  /** Saving a successor that keeps the post invariant keeps the store valid. */
  lemma SaveKeepsValid(ps: seq<Post>, k: nat, q: Post)
    requires ValidPosts(ps) && k < |ps|
    requires Successor(ps[k], q) && PostInvariant(q)
    ensures ValidPosts(ps[k := q]) && Successors(ps, ps[k := q])
  {
    forall i | 0 <= i < |ps| ensures Successor(ps[i], ps[k := q][i]) {
      if i != k {
        assert ps[i].comments[..|ps[i].comments|] == ps[i].comments;
      }
    }
  }

  /** The sweep changes only statuses, so it keeps the store valid. */
  lemma SweepKeepsValid(ps: seq<Post>, now: int)
    requires ValidPosts(ps)
    ensures ValidPosts(SweepAll(ps, now)) && Successors(ps, SweepAll(ps, now))
  {
    var qs := SweepAll(ps, now);
    forall i | 0 <= i < |qs| ensures qs[i].id == i && PostInvariant(qs[i]) {
      assert qs[i] == ps[i].(status := qs[i].status);
    }
  }

  class PostStore {
    var posts: seq<Post>

    ghost predicate Valid()
      reads this
    {
      ValidPosts(posts)
    }

    constructor ()
      ensures Valid() && posts == []
    {
      posts := [];
    }

    /** Scan order is id order. */
    lemma ScanOrderIsIdOrder()
      requires Valid()
      ensures IdsAscending(posts)
    {
    }

    /**
     * Create: refuse the request unless every check passes; otherwise store a fresh Live
     * post with the next id, expiring `minutes` after `now`.
     */
    method Create(title: string, topics: TopicsInput, body: string, minutes: int, owner: Principal, now: int)
      returns (r: Response<Post>)
      requires Valid()
      modifies this
      ensures Valid() && Successors(old(posts), posts)
      ensures CheckCreate(title, topics, body, minutes).ValidationError? ==>
                r == ValidationError && posts == old(posts)
      ensures CheckCreate(title, topics, body, minutes).Ok? ==>
                r == Ok(NewPost(|old(posts)|, title, CheckCreate(title, topics, body, minutes).value, body, minutes, owner, now))
                && posts == old(posts) + [r.value]
    {
      var checked := CheckCreate(title, topics, body, minutes);
      if checked.ValidationError? {
        return ValidationError;
      }
      var post := NewPost(|posts|, title, checked.value, body, minutes, owner, now);
      NewPostIsFresh(|posts|, title, checked.value, body, minutes, owner, now);
      posts := posts + [post];
      r := Ok(post);
    }

    /**
     * Like or dislike: look the post up; past its expiry, mark it Expired, save and fail;
     * refuse the owner; otherwise clear the actor from the opposite list, toggle them in the
     * target list, save and answer with the target list's last record.
     */
    method React(postId: nat, actor: Principal, reaction: Reaction, now: int)
      returns (r: Response<Option<Interaction>>)
      requires Valid()
      modifies this
      ensures Valid() && Successors(old(posts), posts) && |posts| == |old(posts)|
      ensures postId >= |old(posts)| ==> r == NotFound && posts == old(posts)
      ensures postId < |old(posts)| ==>
                var a := ReactOnPost(old(posts)[postId], actor, reaction, now);
                r == a.response && posts == old(posts)[postId := a.post]
    {
      if postId >= |posts| {
        return NotFound;
      }
      var post := posts[postId];
      ghost var a := ReactOnPost(post, actor, reaction, now);
      ReactKeepsInvariant(post, actor, reaction, now);
      SaveKeepsValid(posts, postId, a.post);
      if IsExpired(post, now) {
        post := post.(status := Expired);
        posts := posts[postId := post];
        return ExpiredConflict;
      }
      if post.owner.userId == actor.userId {
        assert posts[postId := post] == posts;
        return SelfInteraction;
      }
      var uid := actor.userId;
      var opposite := RemoveUser(Opposing(post, reaction), uid);
      var target := Reactions(post, reaction);
      if HasUser(target, uid) {
        target := RemoveUser(target, uid);
      } else {
        target := target + [Interaction(uid, actor.username, reaction, None, TimeLeftSeconds(post, now))];
      }
      post := WithReactions(post, reaction, target, opposite);
      assert post == a.post;
      posts := posts[postId := post];
      r := Ok(LastOf(target));
    }

    /**
     * Comment: refuse empty text before looking anything up; look the post up; past its
     * expiry, mark it Expired, save and fail; otherwise append the comment record and save.
     */
    method AddComment(postId: nat, actor: Principal, text: string, now: int)
      returns (r: Response<Option<Interaction>>)
      requires Valid()
      modifies this
      ensures Valid() && Successors(old(posts), posts) && |posts| == |old(posts)|
      ensures text == "" ==> r == ValidationError && posts == old(posts)
      ensures text != "" && postId >= |old(posts)| ==> r == NotFound && posts == old(posts)
      ensures text != "" && postId < |old(posts)| ==>
                var a := CommentOnPost(old(posts)[postId], actor, text, now);
                r == a.response && posts == old(posts)[postId := a.post]
    {
      if text == "" {
        return ValidationError;
      }
      if postId >= |posts| {
        return NotFound;
      }
      var post := posts[postId];
      ghost var a := CommentOnPost(post, actor, text, now);
      CommentKeepsInvariant(post, actor, text, now);
      SaveKeepsValid(posts, postId, a.post);
      if IsExpired(post, now) {
        post := post.(status := Expired);
        posts := posts[postId := post];
        return ExpiredConflict;
      }
      var rec := Interaction(actor.userId, actor.username, Comment, Some(text), TimeLeftSeconds(post, now));
      post := post.(comments := post.comments + [rec]);
      posts := posts[postId := post];
      r := Ok(Some(rec));
    }

    /** The browse route's bulk update: every Live post past its expiry becomes Expired. */
    method Sweep(now: int)
      requires Valid()
      modifies this
      ensures Valid() && Successors(old(posts), posts)
      ensures posts == SweepAll(old(posts), now)
    {
      var i := 0;
      while i < |posts|
        invariant 0 <= i <= |posts| == |old(posts)|
        invariant forall j :: 0 <= j < i ==> posts[j] == Swept(old(posts)[j], now)
        invariant forall j :: i <= j < |posts| ==> posts[j] == old(posts)[j]
      {
        assert posts[i] == old(posts)[i];
        if posts[i].status == Live && posts[i].expiresAt < now {
          posts := posts[i := posts[i].(status := Expired)];
        }
        assert posts[i] == Swept(old(posts)[i], now);
        i := i + 1;
      }
      assert posts == SweepAll(old(posts), now);
      SweepKeepsValid(old(posts), now);
    }

    /**
     * Most interesting for a topic, over the stored statuses as they are (no sweep): among
     * the Live posts with the topic, the highest likes plus dislikes, the earliest stored
     * post winning a tie; a marker when there is none.
     */
    method MostInteresting(topic: string) returns (r: Response<Ranking>)
      requires Valid()
      ensures ParseTopic(topic).None? ==> r == ValidationError
      ensures ParseTopic(topic).Some? ==>
                var live := Query(ParseTopic(topic).value, Some(Live));
                r.Ok?
                && (r.value == NoActivePosts <==> forall p :: p in posts ==> !Matches(p, live))
                && (r.value.Best? ==>
                      r.value.post in posts && Matches(r.value.post, live)
                      && r.value.score == Score(r.value.post)
                      && (forall p :: p in posts && Matches(p, live) ==> Score(p) <= r.value.score)
                      && (forall p :: p in posts && Matches(p, live) && Score(p) == r.value.score ==>
                            r.value.post.id <= p.id))
    {
      var parsed := ParseTopic(topic);
      if parsed.None? {
        return ValidationError;
      }
      var live := Query(parsed.value, Some(Live));
      ScanOrderIsIdOrder();
      var ranking := PickMostInteresting(Find(posts, live));
      RankingOverStore(posts, live, ranking);
      r := Ok(ranking);
    }

    /**
     * Expired posts for a topic, over the stored statuses as they are (no sweep): exactly
     * the Expired posts carrying the topic, latest expiry first.
     */
    function ExpiredList(topic: string): (r: Response<seq<Post>>)
      reads this
      ensures ParseTopic(topic).None? <==> r == ValidationError
      ensures r.Ok? ==>
                var expired := Query(ParseTopic(topic).value, Some(Expired));
                LatestExpiryFirst(r.value)
                && multiset(r.value) == multiset(Find(posts, expired))
                && forall p :: p in r.value <==> p in posts && Matches(p, expired)
    {
      match ParseTopic(topic)
      case None => ValidationError
      case Some(t) =>
        var found := Find(posts, Query(t, Some(Expired)));
        var sorted := SortByExpiryDesc(found);
        assert forall p :: p in sorted <==> p in multiset(found);
        Ok(sorted)
    }

    /**
     * Browse by topic: refuse a bad topic; otherwise sweep the whole store, then report the
     * view of every post carrying the topic, newest first.
     */
    method Browse(topic: string, now: int) returns (r: Response<seq<PostView>>)
      requires Valid()
      modifies this
      ensures Valid() && Successors(old(posts), posts)
      ensures ParseTopic(topic).None? ==> r == ValidationError && posts == old(posts)
      ensures ParseTopic(topic).Some? ==>
                var shown := Reverse(Find(posts, Query(ParseTopic(topic).value, None)));
                posts == SweepAll(old(posts), now) && r.Ok?
                && |r.value| == |shown| && (forall i :: 0 <= i < |shown| ==> r.value[i] == View(shown[i]))
                && (forall p :: p in shown <==> p in posts && ParseTopic(topic).value in p.topics)
                && (forall p :: p in shown ==> !(p.status == Live && p.expiresAt < now))
                && (forall i, j :: 0 <= i < j < |r.value| ==> r.value[i].id > r.value[j].id)
    {
      var parsed := ParseTopic(topic);
      if parsed.None? {
        return ValidationError;
      }
      Sweep(now);
      SweepSettles(old(posts), now);
      ScanOrderIsIdOrder();
      var shown := Reverse(Find(posts, Query(parsed.value, None)));
      NewestFirst(posts, Query(parsed.value, None));
      var views := ProjectAll(shown);
      r := Ok(views);
    }
  }
}

=== FILE: toggle.dfy ===
/**
 * The interaction toggle engine: clearing the actor from the opposite reaction list and
 * toggling them in the target list. Both filters are keyed on the record's `userId`.
 */
module ToggleEngine {
  import opened Domain

  /** `list.some(u => u.userId === userId)`. */
  predicate HasUser(s: seq<Interaction>, uid: string): (present: bool)
    ensures present <==> RemoveUser(s, uid) != s
  {
    RemoveAbsentUser(s, uid);
    exists x :: x in s && x.userId == uid
  }

  /** No user has two records in the list. */
  predicate UniqueUsers(s: seq<Interaction>)
  {
    forall i, j :: 0 <= i < j < |s| ==> s[i].userId != s[j].userId
  }

  /** No user has a record in both lists. */
  predicate Exclusive(a: seq<Interaction>, b: seq<Interaction>)
  {
    forall x, y :: x in a && y in b ==> x.userId != y.userId
  }

  predicate AllOfKind(s: seq<Interaction>, k: Kind)
  {
    forall x :: x in s ==> x.kind == k
  }

  /** `list.filter(u => u.userId !== userId)`: drops every record of the user, keeps the rest. */
  function RemoveUser(s: seq<Interaction>, uid: string): (r: seq<Interaction>)
    ensures forall x :: x in r <==> x in s && x.userId != uid
    ensures UniqueUsers(s) ==> UniqueUsers(r)
    ensures |r| <= |s|
  {
    if s == [] then []
    else
      var rest := RemoveUser(s[1..], uid);
      var r := (if s[0].userId == uid then [] else [s[0]]) + rest;
      assert forall x :: x in r <==> (x == s[0] && s[0].userId != uid) || x in rest;
      assert UniqueUsers(s) ==> UniqueUsers(r) by {
        if UniqueUsers(s) {
          assert UniqueUsers(s[1..]) by {
            forall i, j | 0 <= i < j < |s| - 1 ensures s[1..][i].userId != s[1..][j].userId {
              assert s[1..][i] == s[i + 1] && s[1..][j] == s[j + 1];
            }
          }
        }
        if UniqueUsers(s) && s[0].userId != uid {
          forall j | 1 <= j < |r| ensures r[0].userId != r[j].userId {
            assert r[j] in s[1..];
            var k :| 0 <= k < |s| - 1 && s[1..][k] == r[j];
            assert s[k + 1] == r[j];
          }
        }
      }
      r
  }

  /** One step of the filter: the first record is kept unless it is the user's. */
  lemma RemoveUserCons(x: Interaction, s: seq<Interaction>, uid: string)
    ensures RemoveUser([x] + s, uid) == (if x.userId == uid then [] else [x]) + RemoveUser(s, uid)
  {
    assert ([x] + s)[1..] == s;
  }

  /** Splitting a non-empty prefix at its head; kept apart to keep the step below small. */
  lemma SplitHead(a: seq<Interaction>, b: seq<Interaction>)
    requires a != []
    ensures a == [a[0]] + a[1..] && a + b == [a[0]] + (a[1..] + b)
  {
  }

  /** Concatenation is associative; kept apart to keep the step below small. */
  lemma ConcatAssoc(a: seq<Interaction>, b: seq<Interaction>, c: seq<Interaction>)
    ensures a + (b + c) == (a + b) + c
  {
  }

  /** Filtering distributes over concatenation, so the kept records keep their relative order. */
  lemma {:induction false} RemoveUserConcat(a: seq<Interaction>, b: seq<Interaction>, uid: string)
    ensures RemoveUser(a + b, uid) == RemoveUser(a, uid) + RemoveUser(b, uid)
  {
    if a == [] {
      assert a + b == b;
    } else {
      var x, tail := a[0], a[1..];
      SplitHead(a, b);
      RemoveUserCons(x, tail + b, uid);
      RemoveUserCons(x, tail, uid);
      RemoveUserConcat(tail, b, uid);
      ConcatAssoc(if x.userId == uid then [] else [x], RemoveUser(tail, uid), RemoveUser(b, uid));
    }
  }

  /** Filtering out a user who has no record changes nothing. */
  lemma {:induction false} RemoveAbsentUser(s: seq<Interaction>, uid: string)
    ensures (forall x :: x in s ==> x.userId != uid) ==> RemoveUser(s, uid) == s
  {
    if s != [] && forall x :: x in s ==> x.userId != uid {
      assert s[0] in s;
      assert forall x :: x in s[1..] ==> x in s;
      RemoveAbsentUser(s[1..], uid);
    }
  }

  /**
   * The last two stages of a reaction (clearing the opposite list, toggling the target list)
   * for the actor of `rec`: remove them from the opposite list; then remove them from the
   * target list if present, otherwise append `rec`.
   * The result is (new target list, new opposite list).
   */
  function Toggle(target: seq<Interaction>, opposite: seq<Interaction>, rec: Interaction)
    : (lists: (seq<Interaction>, seq<Interaction>))
    ensures forall x :: x in lists.0 ==> x in target || x == rec
    ensures forall x :: x in lists.1 ==> x in opposite
  {
    var cleared := RemoveUser(opposite, rec.userId);
    if HasUser(target, rec.userId) then (RemoveUser(target, rec.userId), cleared)
    else (target + [rec], cleared)
  }

  /**
   * A toggle flips the actor's presence in the target list, leaves them in neither list twice,
   * removes them from the opposite list, and leaves every other user's records, in order, as
   * they were; a toggle-on appends exactly `rec` at the end.
   */
  lemma ToggleFlips(target: seq<Interaction>, opposite: seq<Interaction>, rec: Interaction)
    ensures HasUser(Toggle(target, opposite, rec).0, rec.userId) <==> !HasUser(target, rec.userId)
    ensures !HasUser(Toggle(target, opposite, rec).1, rec.userId)
    ensures RemoveUser(Toggle(target, opposite, rec).0, rec.userId) == RemoveUser(target, rec.userId)
    ensures RemoveUser(Toggle(target, opposite, rec).1, rec.userId) == RemoveUser(opposite, rec.userId)
    ensures !HasUser(target, rec.userId) ==> Toggle(target, opposite, rec).0 == target + [rec]
  {
    var uid := rec.userId;
    var lists := Toggle(target, opposite, rec);
    RemoveAbsentUser(lists.1, uid);
    if HasUser(target, uid) {
      RemoveAbsentUser(lists.0, uid);
    } else {
      assert rec in lists.0;
      RemoveUserConcat(target, [rec], uid);
      assert RemoveUser([rec], uid) == [];
    }
  }

  /** Toggling keeps each list free of duplicate users and the two lists disjoint in users. */
  lemma ToggleKeepsExclusive(target: seq<Interaction>, opposite: seq<Interaction>, rec: Interaction)
    requires Exclusive(target, opposite) && UniqueUsers(target) && UniqueUsers(opposite)
    ensures Exclusive(Toggle(target, opposite, rec).0, Toggle(target, opposite, rec).1)
    ensures UniqueUsers(Toggle(target, opposite, rec).0) && UniqueUsers(Toggle(target, opposite, rec).1)
  {
    var uid := rec.userId;
    if !HasUser(target, uid) {
      var t := target + [rec];
      forall i, j | 0 <= i < j < |t| ensures t[i].userId != t[j].userId {
        if j == |target| {
          assert t[i] in target;
        }
      }
    }
  }

  /**
   * Two successive toggles by the same user, who starts in neither list, restore both lists:
   * the first appends their record, the second finds it and removes it again.
   */
  lemma DoubleToggleRestores(target: seq<Interaction>, opposite: seq<Interaction>, first: Interaction, second: Interaction)
    requires first.userId == second.userId
    requires !HasUser(target, first.userId) && !HasUser(opposite, first.userId)
    ensures Toggle(Toggle(target, opposite, first).0, Toggle(target, opposite, first).1, second) == (target, opposite)
  {
    var uid := first.userId;
    RemoveAbsentUser(opposite, uid);
    assert !HasUser(target, uid);
    var appended := target + [first];
    assert Toggle(target, opposite, first) == (appended, opposite);
    assert first in appended;
    assert HasUser(appended, uid);
    RemoveUserConcat(target, [first], uid);
    assert RemoveUser([first], uid) == [];
    RemoveAbsentUser(target, uid);
    assert RemoveUser(appended, uid) == target;
  }

  /** The response of a reaction: the last element of the target list, if any. */
  function LastOf(s: seq<Interaction>): (r: Option<Interaction>)
    ensures r.Some? <==> s != []
    ensures r.Some? ==> r.value == s[|s| - 1]
  {
    if s == [] then None else Some(s[|s| - 1])
  }

  /**
   * `String(u)` of a record the handlers push: a plain object prints as `[object Object]`,
   * whatever its fields.
   */
  const ObjectString: string := "[object Object]"

  function RecordString(x: Interaction): string
  {
    ObjectString
  }

  /**
   * `list.filter(u => String(u) !== String(userId))` as the handlers write it: each whole
   * record, turned into a string, is compared with the bare user id.
   */
  function FilterAsWritten(s: seq<Interaction>, uid: string): (r: seq<Interaction>)
    ensures forall x :: x in r <==> x in s && RecordString(x) != uid
    ensures |r| <= |s|
  {
    if s == [] then []
    else
      var rest := FilterAsWritten(s[1..], uid);
      assert forall x :: x in s <==> x == s[0] || x in s[1..];
      (if RecordString(s[0]) != uid then [s[0]] else []) + rest
  }

  /** The as-written filter keeps every record unless the id is the printed form of a record. */
  lemma {:induction false} FilterAsWrittenKeepsAll(s: seq<Interaction>, uid: string)
    requires uid != ObjectString
    ensures FilterAsWritten(s, uid) == s
  {
    if s != [] {
      FilterAsWrittenKeepsAll(s[1..], uid);
    }
  }

  /**
   * The last two stages of a reaction as the handlers write them: the opposite list goes
   * through the string-comparing filter; the target list is toggled on `userId`.
   */
  function ToggleAsWritten(target: seq<Interaction>, opposite: seq<Interaction>, rec: Interaction)
    : (lists: (seq<Interaction>, seq<Interaction>))
    ensures forall x :: x in lists.1 <==> x in opposite && RecordString(x) != rec.userId
    ensures lists.0 == Toggle(target, opposite, rec).0
  {
    var cleared := FilterAsWritten(opposite, rec.userId);
    if HasUser(target, rec.userId) then (RemoveUser(target, rec.userId), cleared)
    else (target + [rec], cleared)
  }

  /** For every real user id, the as-written clearing leaves the opposite list as it was. */
  lemma AsWrittenKeepsOpposite(target: seq<Interaction>, opposite: seq<Interaction>, rec: Interaction)
    requires rec.userId != ObjectString
    ensures ToggleAsWritten(target, opposite, rec).1 == opposite
  {
    FilterAsWrittenKeepsAll(opposite, rec.userId);
  }

  /**
   * As written, a user who liked and then dislikes ends up in both lists; the userId-keyed
   * toggle moves them from one list to the other instead.
   */
  lemma AsWrittenLeavesUserInBothLists(uid: string)
    requires uid != ObjectString
    ensures var liked := Interaction(uid, Some("b"), Like, None, 60);
            var disliked := Interaction(uid, Some("b"), Dislike, None, 30);
            var asWritten := ToggleAsWritten([], [liked], disliked);
            var keyed := Toggle([], [liked], disliked);
            !Exclusive(asWritten.1, asWritten.0) && keyed == ([disliked], [])
  {
    var liked := Interaction(uid, Some("b"), Like, None, 60);
    var disliked := Interaction(uid, Some("b"), Dislike, None, 30);
    var none: seq<Interaction> := [];
    assert !HasUser(none, uid);
    assert none + [disliked] == [disliked];
    var asWritten := ToggleAsWritten([], [liked], disliked);
    AsWrittenKeepsOpposite([], [liked], disliked);
    assert asWritten == ([disliked], [liked]);
    assert liked in asWritten.1 && disliked in asWritten.0;
    assert RemoveUser([liked], uid) == [];
  }
}
